=== FILE: README.md ===
# BlockSnap dashcam pipeline: a verified model

This project models the backend pipeline of the BlockSnap dashcam. The pipeline has three
parts, each written as a Dafny class:

- **The segment producer** (`VideoHandler`, modelling `BlockSnap/backend/video_handler.py`).
  `DashcamRecorder` cuts the captured frames into chunks. A chunk is cut once the elapsed
  time reaches the chunk duration. Each chunk is numbered and put on a queue of capacity 30.
  A retention sweep deletes `chunk_*.mp4` files older than 300 seconds.
- **The batch uploader** (`BatchProcessing`, modelling `BlockSnap/backend/batch_processor.py`).
  `BatchProcessor` takes chunks in batches of at most `max_batch_size`. For each chunk it
  uploads the video and then the metadata to the content-addressed store, with at most three
  attempts each. It verifies both content ids and pushes one success or failure record per
  chunk.
- **The session orchestrator** (`DashcamManagement`, modelling
  `BlockSnap/backend/dashcam_manager.py`). `DashcamManager` opens a ledger session, starts
  the recorder and the batch processor, and forwards upload results to the ledger. It cleans
  up on every failure and on every stop.

The source runs four background threads: the recording thread and the chunk-management
thread of the recorder, the processing thread and the upload thread. Three of these loop
bodies become step methods:

- `RecordStep` and `CompletePut` for the recording thread;
- `ProcessLoopStep` for the processing thread;
- `UploadStep` for the upload thread.

The chunk-management loop is left out (see "## Left out"); its retention sweep is modelled
as `CleanupOldChunks`.

The wall clock becomes an integer parameter `now`. Queues are sequences with their head at
index 0.

The collaborators are oracles:

- **The capture device and the chunk file writer.** What a frame read or a save produced is
  a parameter.
- **The content-addressed store.** `Attempts` gives its reply to each of the three
  `add_bytes` attempts. `ChunkIO.retrievable` says which ids `verify_content` confirms.
- **The manager's collaborators** (ledger, recorder, processor). They behave like the mocks
  of the manager's tests. Each reply is a parameter, and every call that acts on a
  collaborator is appended to a call log (polls such as `get_next_chunk`, which removes the
  head of the recorder's queue, and queries such as `get_status` are not logged), so the order of calls is part of the stated behaviour.

Facts about the code that the model keeps as they are:

- **A full chunk queue blocks the recording thread.** `put` waits (producer state
  `BlockedOnPut`) rather than evicting the oldest chunk.
- **`VideoChunk.duration` is always 15** (`ChunkSeconds`), whatever chunk duration the
  recorder is configured with.
- **The ledger path has no retries, read-back or backoff.**
- **There is no recovery or reconciliation routine.**
- **While no chunk has ever succeeded, every processed batch is kept and processed again.**
  `_process_loop` divides by `processed_count` after every batch. While that counter is
  still 0, the division raises. The handler then counts one more failure and skips clearing
  the batch, so the next iteration processes the same chunks again. Once any chunk has
  succeeded, batches are cleared as usual. `ProcessLoopStep` states both outcomes
  (`StatsRaised`, `BatchCleared`).
- **The manager's results call does not exist.** The upload loop calls
  `get_recent_results`, but `BatchProcessor` only defines `get_latest_results`. The reply to
  that call is therefore a parameter of `UploadStep`. Against the real class it would always
  be the `Raises` case, which the loop swallows after the chunk was handed to the processor.
- **The store client has no `add_bytes`.** `process_chunk` calls `add_bytes`, but
  `BlockSnap/backend/ipfs_handler.py` defines no such method. Against the real client every
  attempt raises, so every chunk fails with the third attempt's error. `processed_count`
  then stays 0, so by the previous point no batch is ever cleared.
- **The ledger client has no session methods.** `BlockSnap/backend/blockchain_handler.py`
  defines only `__init__`, `mint_photo_nft`, `verify_photo`, `get_token_uri` and
  `get_image_cid`; none of `start_video_session`, `add_video_chunk`, `end_video_session` or
  `is_session_active` exists. The ledger's replies are therefore parameters. Against the
  real client, every `start_recording` raises at its first call, cleans up and answers
  false: the case of `StartRecording` whose `session` reply is `Raises` and whose cleanup
  returns.
- **One handler wraps the whole retention sweep.** A `stat` or `unlink` that raises on one
  file ends the sweep, and the later files are kept until the next sweep.
- **The manager's cleanup can itself raise.** `cleanup` calls the recorder's cleanup before
  clearing `is_recording` and `session_id`. If that call raises, the exception escapes both
  the handler of `start_recording` and the `finally` of `stop_recording`, and the session
  id is kept.

## Model

| member | source | states |
|---|---|---|
| VideoHandler.GetMetadata | BlockSnap/backend/video_handler.py:14-28 | the metadata carries the chunk's start time and sequence number, a duration of 15 whatever the configuration, and a timestamp derived from the start time |
| VideoHandler.DashcamRecorder.constructor | BlockSnap/backend/video_handler.py:31-67 | a new recorder is not recording, numbers from 0, has an empty queue, no capture and no running thread |
| VideoHandler.DashcamRecorder.StartRecording | BlockSnap/backend/video_handler.py:69-100 | start succeeds iff not already recording and the device opens; while recording it changes nothing; on device failure the capture is released and recording stays off; on success numbering restarts at 0 and the recording thread runs |
| VideoHandler.DashcamRecorder.StopRecording | BlockSnap/backend/video_handler.py:102-110 | stop clears the flag, ends the recording thread (dropping its frame buffer) and releases the capture, keeping the queue and the chunk counter |
| VideoHandler.DashcamRecorder.Cleanup | BlockSnap/backend/video_handler.py:283-289 | the capture device is released |
| VideoHandler.DashcamRecorder.Enqueued | BlockSnap/backend/video_handler.py:144-154 | an accepted chunk is appended at the queue's tail, the counter advances by one, the frame buffer is emptied and the chunk clock restarts |
| VideoHandler.DashcamRecorder.RecordStep | BlockSnap/backend/video_handler.py:112-158 | a missed frame changes nothing; a read exception ends the thread; a chunk is cut only when elapsed time reaches the chunk duration; a saved chunk gets number `currentChunk` and is enqueued (or the thread waits on a full queue holding it); an unsaved cut uses no number; every completed cut empties the buffer and restarts the clock; the queue never exceeds 30 |
| VideoHandler.DashcamRecorder.CompletePut | BlockSnap/backend/video_handler.py:149-154 | a waiting `put` completes exactly when the queue has room, appending the held chunk; nothing is ever discarded |
| VideoHandler.DashcamRecorder.GetNextChunk | BlockSnap/backend/video_handler.py:269-274 | a non-blocking poll: `None` on an empty queue, otherwise the oldest chunk, removed so the queue shrinks by exactly one |
| VideoHandler.DashcamRecorder.GetStatus | BlockSnap/backend/video_handler.py:291-300 | the status reports the flag, the number of chunks enqueued since start, the configuration, and the queue's current length, which is at most 30 |
| VideoHandler.EnqueuedNumbering | BlockSnap/backend/video_handler.py:144-150 | chunks enqueued since start are numbered 0, 1, 2, ... with no gap or repetition, and `current_chunk` is how many there are |
| VideoHandler.FilesWhereExactly | BlockSnap/backend/video_handler.py:195-198 | a file is in the selection iff it is listed and its expiry (matches `chunk_*.mp4` and is strictly older than 300 s) is as selected |
| VideoHandler.FilesWhereSizes | BlockSnap/backend/video_handler.py:195-198 | every listed file is either kept or deleted, never both |
| VideoHandler.CleanupOldChunks | BlockSnap/backend/video_handler.py:191-200 | the sweep ends early exactly at a faulting chunk file; before that point it deletes exactly the expired chunk files (strictly older than 300 s) and keeps the others, and every file from that point on is kept, in listing order |
| BatchProcessing.UploadOf | BlockSnap/backend/batch_processor.py:146-161 | an upload yields an id iff one of the three attempts returned a non-empty id, and that id is non-empty; when no attempt succeeded it raises exactly when the third attempt raised, with that error, and otherwise yields no id |
| BatchProcessing.AttemptsOf | BlockSnap/backend/batch_processor.py:147-158 | between 1 and 3 attempts; every attempt before the last failed; fewer than 3 only when the last one succeeded; the id returned is the last attempt's |
| BatchProcessing.AddWithRetry | BlockSnap/backend/batch_processor.py:147-158 | the retry loop yields `UploadOf` after `AttemptsOf` calls to `add_bytes` |
| BatchProcessing.Outcome | BlockSnap/backend/batch_processor.py:140-207 | a chunk succeeds iff both uploads yield ids and both ids verify, returning those ids; otherwise the error is the first failure in source order: the video upload's (raised error or "no video id"), then the metadata upload's (raised error or "no metadata id"), then failed verification of the video id, then of the metadata id |
| BatchProcessing.ProcessChunk | BlockSnap/backend/batch_processor.py:140-207 | processing ends with `Outcome`; the metadata is uploaded only after the video upload yields an id, and it is the chunk's metadata plus that video id |
| BatchProcessing.ResultOf | BlockSnap/backend/batch_processor.py:127-138 | the record carries the chunk's sequence number; it is a success with both ids iff processing succeeded, otherwise a failure with the error |
| BatchProcessing.BatchResults | BlockSnap/backend/batch_processor.py:125-138 | one record per batch item |
| BatchProcessing.BatchResultsInOrder | BlockSnap/backend/batch_processor.py:125-138 | the i-th record is the i-th chunk's, with that chunk's sequence number |
| BatchProcessing.SuccessesAtMost | BlockSnap/backend/batch_processor.py:125-133 | a batch's successes never exceed its length |
| BatchProcessing.BatchProcessor.constructor | BlockSnap/backend/batch_processor.py:12-32 | a new processor is stopped, with empty queues and batch and zero counters |
| BatchProcessing.BatchProcessor.Start | BlockSnap/backend/batch_processor.py:34-42 | start leaves the processor running and starts a thread only if it was not running |
| BatchProcessing.BatchProcessor.AddChunk | BlockSnap/backend/batch_processor.py:52-58 | while running the chunk is appended at the input queue's tail; otherwise it is dropped |
| BatchProcessing.BatchProcessor.GetLatestResults | BlockSnap/backend/batch_processor.py:60-65 | returns every queued result in FIFO order and leaves the result queue empty |
| BatchProcessing.BatchProcessor.Room | BlockSnap/backend/batch_processor.py:94-99 | batch building takes no more than is available, never grows the batch past `max_batch_size`, and stops early only at that size |
| BatchProcessing.BatchProcessor.BuildBatch | BlockSnap/backend/batch_processor.py:94-99 | the batch grows by the head of the input queue, in FIFO order, by exactly `Room` items |
| BatchProcessing.BatchProcessor.ProcessBatch | BlockSnap/backend/batch_processor.py:123-138 | one record per batch item is pushed in batch order; `processed_count` grows by the successes (never more than the batch length), and the two counters together by the batch length |
| BatchProcessing.BatchProcessor.ProcessLoopStep | BlockSnap/backend/batch_processor.py:89-121 | an empty batch does nothing; otherwise the batch is processed and cleared, except that while `processed_count` is 0 the failure counter gains one more and the batch is kept |
| BatchProcessing.BatchProcessor.ProcessRemaining | BlockSnap/backend/batch_processor.py:209-219 | the whole input queue moves into the batch, ignoring `max_batch_size`, and the batch is processed |
| BatchProcessing.BatchProcessor.Stop | BlockSnap/backend/batch_processor.py:44-50 | stop clears the running flag, drains the input queue into the batch and processes it: one record per item, `processed_count` grows by the successes and the counters together by the batch length |
| DashcamManagement.StartCalls | BlockSnap/backend/dashcam_manager.py:29-53 | the ledger session is opened first; the recorder is started iff the ledger answered; the processor iff the recorder also started, in that order; otherwise cleanup runs last; no session is ended |
| DashcamManagement.StopCalls | BlockSnap/backend/dashcam_manager.py:55-79 | the recorder is stopped first and cleanup runs last; the processor is stopped iff the recorder stop returned; the session is ended at most once, only for the current session, and exactly when there is one and nothing raised before |
| DashcamManagement.ForwardFromMatchesResults | BlockSnap/backend/dashcam_manager.py:94-103 | the j-th `add_video_chunk` call carries the session id and the j-th result's sequence number and both ids; there are no more calls than results |
| DashcamManagement.ForwardFromComplete | BlockSnap/backend/dashcam_manager.py:94-107 | nothing raises iff every result is forwarded exactly once and the last ledger call returns |
| DashcamManagement.DashcamManager.constructor | BlockSnap/backend/dashcam_manager.py:12-27 | a new manager has no session, is not recording, has no upload thread and has made no calls |
| DashcamManagement.DashcamManager.Cleanup | BlockSnap/backend/dashcam_manager.py:124-128 | cleanup asks the recorder to clean up; if that returns, the flag and the session are cleared, and if it raises, both are left as they were |
| DashcamManagement.DashcamManager.StartRecording | BlockSnap/backend/dashcam_manager.py:29-53 | start answers true iff the ledger answers and the recorder starts, making calls as `StartCalls`; success leaves it recording with the ledger's session id; a failure whose cleanup returns answers false with no session and not recording; a failure whose cleanup raises lets the exception escape, keeping the session id already assigned |
| DashcamManagement.DashcamManager.StopRecording | BlockSnap/backend/dashcam_manager.py:55-79 | stop makes calls as `StopCalls` and ends not recording, so the upload-loop guard (line 83) then holds exactly while the recorder's queue is not empty; exceptions from the recorder, processor and ledger are swallowed; only the cleanup's exception escapes, and then the session is kept, otherwise it is cleared |
| DashcamManagement.DashcamManager.UploadStep | BlockSnap/backend/dashcam_manager.py:81-107 | without a chunk nothing further is called; otherwise the chunk goes to the processor and then the results are forwarded as `ForwardFrom`; any exception is swallowed; the flag and the session are unchanged, so for a given recorder queue size the upload-loop guard (line 83) is unchanged |
| DashcamManagement.DashcamManager.ForwardResults | BlockSnap/backend/dashcam_manager.py:94-103 | the forwarding loop makes exactly the calls `ForwardFrom` describes and reports a raise exactly when `RaisesFrom` holds |
| DashcamManagement.DashcamManager.GetStatus | BlockSnap/backend/dashcam_manager.py:109-122 | the status reports the flag, the session, and the recorder's status and the processor's statistics as those collaborators returned them; `session_active` holds iff there is a session that the ledger reports active; the error record appears iff a consulted collaborator raises, and carries the first such error in source order |

## Left out

- The default arguments of the constructors are not modelled: `chunk_duration=15`,
  `resolution=(1920, 1080)` and `fps=30` of the recorder, and `max_batch_size=5` of the batch
  processor. The model's constructors take these values as required parameters.
- OpenCV capture, the timestamp overlay, the preview frame and its lock, and the chunk file
  writer are device I/O and drawing. A frame read and a save result are parameters instead.
- The bytes of a saved chunk are a parameter. The read-back of the saved file is not
  modelled, including an exception while reading it.
- Threads, `join` and `sleep` are left out. The queue timeout of batch building is also left
  out: batch building takes what is already queued.
- VideoHandler.DashcamRecorder.StopRecording: requires that the recording thread is not
  waiting in `put`. In the source, `join` would wait for that `put` to complete.
- VideoHandler.DashcamRecorder.StopRecording: does not model joining the chunk-management
  thread, which waits until the recorder's queue is empty.
- The chunk-management loop around the retention sweep is not modelled. The sweep itself is
  `CleanupOldChunks`, over a directory listing with integer modification times and at most
  one faulting file.
- The timing statistics are wall-clock floats and are left out: `process_time`,
  `last_process_time`, `avg_process_time` and `total_process_time`. Only the division that
  raises is kept.
- `get_stats` is left out. Its ratios `success_rate` and `average_process_time` are
  floating point. The manager receives the processor's statistics as a parameter.
- BatchProcessing.ProcessChunk: the metadata's `process_time` field is not modelled, and
  neither are the JSON encoding or the file names passed to `add_bytes`.
- The store's replies do not depend on the bytes uploaded, so content addressing is not
  modelled.
- DashcamManagement.DashcamManager.StopRecording: does not model joining the upload thread.
- The ledger handler's own code (`blockchain_handler.py`), the store client
  (`ipfs_handler.py`), the Flask routes, the frontend and the hardware drivers are not part
  of this model.
- VideoHandler.DashcamRecorder.RecordStep: the frame kept in the buffer carries the clock
  value passed in, not a rendered timestamp string.
- The ledger's failure to end a session changes nothing the manager keeps, so the reply to
  that call is not a parameter.

=== FILE: batch_processor.dfy ===
/**
 * The batch uploader: `BatchProcessor`.
 *
 * The content-addressed store is an oracle.  For each chunk it is processed with, a
 * `ChunkIO` says what the store answers to each of the (at most three) `add_bytes` calls
 * of the video upload and of the metadata upload, and which content ids `verify_content`
 * finds retrievable.  The processing thread becomes the step method `ProcessLoopStep`;
 * queues are sequences with the head at index 0.
 */
module BatchProcessing {
  import opened Common
  import opened VideoHandler

  /** Attempts made by each upload loop. */
  const MaxAttempts := 3

  /** What one `add_bytes` call did: return a content id (the empty string when it returned
      none) or raise. */
  datatype StoreReply = Stored(cid: Cid) | StoreRaised(error: string)

  /** A reply that ends the retry loop with a content id. */
  predicate Succeeds(reply: StoreReply)
  {
    reply.Stored? && reply.cid != ""
  }

  /** The store's replies to the first, second and third attempt of one upload. */
  datatype Attempts = Attempts(first: StoreReply, second: StoreReply, third: StoreReply)
  {
    function At(k: nat): StoreReply
      requires k < MaxAttempts
    {
      if k == 0 then first else if k == 1 then second else third
    }
  }

  /** The result of one upload loop: a content id, no content id after three attempts, or
      the exception raised by the third attempt. */
  datatype Upload = Uploaded(cid: Cid) | NoCid | UploadRaised(error: string)

  /** What an upload with retries yields, given the store's replies. */
  function UploadOf(a: Attempts): (u: Upload)
    ensures u.Uploaded? <==> Succeeds(a.first) || Succeeds(a.second) || Succeeds(a.third)
    ensures u.Uploaded? ==> u.cid != ""
    ensures u.UploadRaised? ==> a.third.StoreRaised? && u.error == a.third.error
    ensures !u.Uploaded? ==> (u.UploadRaised? <==> a.third.StoreRaised?)
  {
    if Succeeds(a.first) then Uploaded(a.first.cid)
    else if Succeeds(a.second) then Uploaded(a.second.cid)
    else if Succeeds(a.third) then Uploaded(a.third.cid)
    else if a.third.StoreRaised? then UploadRaised(a.third.error)
    else NoCid
  }

  /** How many times an upload with retries calls `add_bytes`. */
  function AttemptsOf(a: Attempts): (n: nat)
    ensures 1 <= n <= MaxAttempts
    ensures forall k :: 0 <= k < n - 1 ==> !Succeeds(a.At(k))
    ensures n < MaxAttempts ==> Succeeds(a.At(n - 1))
    ensures UploadOf(a).Uploaded? ==> Succeeds(a.At(n - 1)) && UploadOf(a).cid == a.At(n - 1).cid
  {
    if Succeeds(a.first) then 1
    else if Succeeds(a.second) then 2
    else 3
  }

  /** The retry loop of `process_chunk`: call `add_bytes` until it returns a content id, at
      most three times; an exception from the first two attempts is swallowed, one from the
      third propagates. */
  method AddWithRetry(a: Attempts) returns (u: Upload, attempts: nat)
    ensures u == UploadOf(a) && attempts == AttemptsOf(a)
  {
    attempts := 0;
    while attempts < MaxAttempts
      invariant 0 <= attempts <= MaxAttempts
      invariant forall k :: 0 <= k < attempts ==> !Succeeds(a.At(k))
      invariant attempts == MaxAttempts ==> a.third.Stored?
    {
      var reply := a.At(attempts);
      attempts := attempts + 1;
      match reply
      case Stored(cid) =>
        if cid != "" {
          assert attempts > 1 ==> !Succeeds(a.At(0));
          assert attempts > 2 ==> !Succeeds(a.At(1));
          return Uploaded(cid), attempts;
        }
      case StoreRaised(error) =>
        if attempts == MaxAttempts {
          assert !Succeeds(a.At(0)) && !Succeeds(a.At(1));
          return UploadRaised(error), attempts;
        }
    }
    assert !Succeeds(a.At(0)) && !Succeeds(a.At(1)) && !Succeeds(a.At(2));
    u := NoCid;
  }

  /** The exception `process_chunk` ends with. */
  datatype ChunkError =
    | Raised(error: string)
    | VideoUploadFailed
    | MetadataUploadFailed
    | VideoVerificationFailed(videoCid: Cid)
    | MetadataVerificationFailed(metadataCid: Cid)

  /** The store's behaviour while one chunk is processed. */
  datatype ChunkIO = ChunkIO(video: Attempts, metadata: Attempts, retrievable: set<Cid>)

  /** How processing one chunk ends: both content ids, or an error. */
  datatype ChunkOutcome = Processed(videoCid: Cid, metadataCid: Cid) | Rejected(error: ChunkError)

  /** The metadata object uploaded for a chunk: the chunk's metadata plus the video's id. */
  datatype UploadedMetadata = UploadedMetadata(chunk: ChunkMetadata, videoCid: Cid)

  /** How processing a chunk ends, given the store's behaviour: a success needs both uploads
      to yield a content id and both ids to be verified retrievable. */
  function Outcome(io: ChunkIO): (o: ChunkOutcome)
    ensures o.Processed? <==>
      && UploadOf(io.video).Uploaded? && UploadOf(io.metadata).Uploaded?
      && UploadOf(io.video).cid in io.retrievable && UploadOf(io.metadata).cid in io.retrievable
    ensures o.Processed? ==>
      && o.videoCid == UploadOf(io.video).cid && o.metadataCid == UploadOf(io.metadata).cid
      && o.videoCid != "" && o.metadataCid != ""
    ensures !UploadOf(io.video).Uploaded? ==>
      o == Rejected(if UploadOf(io.video).NoCid? then VideoUploadFailed else Raised(UploadOf(io.video).error))
    ensures UploadOf(io.video).Uploaded? && !UploadOf(io.metadata).Uploaded? ==>
      o == Rejected(if UploadOf(io.metadata).NoCid? then MetadataUploadFailed else Raised(UploadOf(io.metadata).error))
    ensures UploadOf(io.video).Uploaded? && UploadOf(io.metadata).Uploaded? && UploadOf(io.video).cid !in io.retrievable ==>
      o == Rejected(VideoVerificationFailed(UploadOf(io.video).cid))
    ensures (UploadOf(io.video).Uploaded? && UploadOf(io.metadata).Uploaded? && UploadOf(io.video).cid in io.retrievable
             && UploadOf(io.metadata).cid !in io.retrievable) ==>
      o == Rejected(MetadataVerificationFailed(UploadOf(io.metadata).cid))
  {
    match UploadOf(io.video)
    case UploadRaised(error) => Rejected(Raised(error))
    case NoCid => Rejected(VideoUploadFailed)
    case Uploaded(videoCid) =>
      match UploadOf(io.metadata)
      case UploadRaised(error) => Rejected(Raised(error))
      case NoCid => Rejected(MetadataUploadFailed)
      case Uploaded(metadataCid) =>
        if videoCid !in io.retrievable then Rejected(VideoVerificationFailed(videoCid))
        else if metadataCid !in io.retrievable then Rejected(MetadataVerificationFailed(metadataCid))
        else Processed(videoCid, metadataCid)
  }

  /** `process_chunk`: upload the video, then (only if that gave an id) the metadata carrying
      the video's id, then verify both ids.  Also returns how often each upload called
      `add_bytes` and the metadata object that was uploaded, if any. */
  method ProcessChunk(chunk: VideoChunk, io: ChunkIO)
    returns (o: ChunkOutcome, videoAttempts: nat, metadataAttempts: nat, metadata: Option<UploadedMetadata>)
    ensures o == Outcome(io)
    ensures videoAttempts == AttemptsOf(io.video)
    ensures UploadOf(io.video).Uploaded? ==>
      && metadataAttempts == AttemptsOf(io.metadata)
      && metadata == Some(UploadedMetadata(GetMetadata(chunk), UploadOf(io.video).cid))
    ensures !UploadOf(io.video).Uploaded? ==> metadataAttempts == 0 && metadata == None
  {
    metadataAttempts, metadata := 0, None;
    var video;
    video, videoAttempts := AddWithRetry(io.video);
    match video
    case UploadRaised(error) =>
      o := Rejected(Raised(error));
    case NoCid =>
      o := Rejected(VideoUploadFailed);
    case Uploaded(videoCid) =>
      var record := UploadedMetadata(GetMetadata(chunk), videoCid);
      metadata := Some(record);
      var uploaded;
      uploaded, metadataAttempts := AddWithRetry(io.metadata);
      match uploaded
      case UploadRaised(error) =>
        o := Rejected(Raised(error));
      case NoCid =>
        o := Rejected(MetadataUploadFailed);
      case Uploaded(metadataCid) =>
        if videoCid !in io.retrievable {
          o := Rejected(VideoVerificationFailed(videoCid));
        } else if metadataCid !in io.retrievable {
          o := Rejected(MetadataVerificationFailed(metadataCid));
        } else {
          o := Processed(videoCid, metadataCid);
        }
  }

  /** A record pushed on the result queue. */
  datatype ResultRecord =
    | Success(videoCid: Cid, metadataCid: Cid, sequenceNumber: int)
    | Failure(error: ChunkError, sequenceNumber: int)

  /** The record `_process_batch` pushes for one chunk. */
  function ResultOf(chunk: VideoChunk, io: ChunkIO): (r: ResultRecord)
    ensures r.sequenceNumber == chunk.sequenceNumber
    ensures r.Success? <==> Outcome(io).Processed?
    ensures r.Success? ==> r.videoCid == Outcome(io).videoCid && r.metadataCid == Outcome(io).metadataCid
    ensures r.Failure? ==> r.error == Outcome(io).error
  {
    match Outcome(io)
    case Processed(videoCid, metadataCid) => Success(videoCid, metadataCid, chunk.sequenceNumber)
    case Rejected(error) => Failure(error, chunk.sequenceNumber)
  }

  /** The records `_process_batch` pushes for a batch, the i-th chunk processed with `ios[i]`. */
  function BatchResults(batch: seq<VideoChunk>, ios: seq<ChunkIO>): (rs: seq<ResultRecord>)
    requires |ios| == |batch|
    ensures |rs| == |batch|
  {
    if batch == [] then []
    else BatchResults(batch[..|batch| - 1], ios[..|ios| - 1]) + [ResultOf(batch[|batch| - 1], ios[|ios| - 1])]
  }

  /** The number of success records. */
  function Successes(rs: seq<ResultRecord>): nat
  {
    if rs == [] then 0
    else Successes(rs[..|rs| - 1]) + (if rs[|rs| - 1].Success? then 1 else 0)
  }

  /** One result per batch item, in batch order: the i-th record is the i-th chunk's, with
      that chunk's sequence number. */
  lemma {:induction false} BatchResultsInOrder(batch: seq<VideoChunk>, ios: seq<ChunkIO>)
    requires |ios| == |batch|
    ensures forall i :: 0 <= i < |batch| ==> BatchResults(batch, ios)[i] == ResultOf(batch[i], ios[i])
    ensures forall i :: 0 <= i < |batch| ==> BatchResults(batch, ios)[i].sequenceNumber == batch[i].sequenceNumber
  {
    if batch != [] {
      BatchResultsInOrder(batch[..|batch| - 1], ios[..|ios| - 1]);
    }
  }

  /** Processing one more chunk appends that chunk's record to the batch's records, and adds
      one to the successes exactly when that record is a success. */
  lemma BatchResultsStep(batch: seq<VideoChunk>, ios: seq<ChunkIO>, i: nat)
    requires |ios| == |batch| && i < |batch|
    ensures BatchResults(batch[..i + 1], ios[..i + 1]) == BatchResults(batch[..i], ios[..i]) + [ResultOf(batch[i], ios[i])]
    ensures Successes(BatchResults(batch[..i + 1], ios[..i + 1])) ==
      Successes(BatchResults(batch[..i], ios[..i])) + (if ResultOf(batch[i], ios[i]).Success? then 1 else 0)
  {
    assert batch[..i + 1][..i] == batch[..i] && ios[..i + 1][..i] == ios[..i];
  }

  /** A run of records holds no more successes than records. */
  lemma {:induction false} SuccessesAtMost(rs: seq<ResultRecord>)
    ensures Successes(rs) <= |rs|
  {
    if rs != [] {
      SuccessesAtMost(rs[..|rs| - 1]);
    }
  }

  /** The counters and queue sizes `get_stats` reports (its timing ratios are not modelled). */
  datatype ProcessorStats = ProcessorStats(
    processedCount: int, failedCount: int, queueSize: nat, resultQueueSize: nat,
    currentBatchSize: nat, isRunning: bool)

  /** How one iteration of the processing loop ended. */
  datatype LoopOutcome =
    | NothingToDo      // the batch stayed empty; the loop sleeps
    | BatchCleared     // the batch was processed and cleared
    | StatsRaised      // the batch was processed, the average-time division raised, the batch was kept

  class BatchProcessor {
    const maxBatchSize: int

    var inputQueue: seq<VideoChunk>
    var resultQueue: seq<ResultRecord>
    var isRunning: bool
    /** How many processing threads have been started. */
    var threadsStarted: nat
    var processedCount: nat
    var failedCount: nat
    var currentBatch: seq<VideoChunk>

    constructor (maxBatchSize: int)
      ensures this.maxBatchSize == maxBatchSize
      ensures inputQueue == [] && resultQueue == [] && currentBatch == []
      ensures !isRunning && threadsStarted == 0 && processedCount == 0 && failedCount == 0
    {
      this.maxBatchSize := maxBatchSize;
      inputQueue, resultQueue, currentBatch := [], [], [];
      isRunning, threadsStarted := false, 0;
      processedCount, failedCount := 0, 0;
    }

    /** Start the processing thread; does nothing while already running. */
    method Start()
      modifies this`isRunning, this`threadsStarted
      ensures isRunning
      ensures old(isRunning) ==> threadsStarted == old(threadsStarted)
      ensures !old(isRunning) ==> threadsStarted == old(threadsStarted) + 1
    {
      if isRunning {
        return;
      }
      isRunning := true;
      threadsStarted := threadsStarted + 1;
    }

    /** Queue a chunk for processing; dropped while the processor is not running. */
    method AddChunk(chunk: VideoChunk)
      modifies this`inputQueue
      ensures isRunning ==> inputQueue == old(inputQueue) + [chunk]
      ensures !isRunning ==> inputQueue == old(inputQueue)
    {
      if !isRunning {
        return;
      }
      inputQueue := inputQueue + [chunk];
    }

    /** Take every available result, oldest first, leaving the result queue empty. */
    method GetLatestResults() returns (results: seq<ResultRecord>)
      modifies this`resultQueue
      ensures results == old(resultQueue) && resultQueue == []
    {
      results := [];
      while resultQueue != []
        invariant results + resultQueue == old(resultQueue)
      {
        results := results + [resultQueue[0]];
        resultQueue := resultQueue[1..];
      }
    }

    /** How many chunks batch building moves from the input queue into a batch of
        `batchSize` items. */
    function Room(batchSize: nat, available: nat): (k: nat)
      ensures k <= available
      ensures batchSize + k <= maxBatchSize || k == 0
      ensures k < available ==> batchSize + k >= maxBatchSize
    {
      if batchSize >= maxBatchSize then 0
      else if maxBatchSize - batchSize < available then maxBatchSize - batchSize
      else available
    }

    /** The batch-building loop: move chunks from the head of the input queue to the batch
        while the batch is smaller than `maxBatchSize` and the input queue is not empty. */
    method BuildBatch()
      modifies this`currentBatch, this`inputQueue
      ensures var k := Room(|old(currentBatch)|, |old(inputQueue)|);
        && currentBatch == old(currentBatch) + old(inputQueue)[..k]
        && inputQueue == old(inputQueue)[k..]
    {
      ghost var k := Room(|currentBatch|, |inputQueue|);
      ghost var taken := 0;
      while |currentBatch| < maxBatchSize && inputQueue != []
        invariant 0 <= taken <= |old(inputQueue)|
        invariant currentBatch == old(currentBatch) + old(inputQueue)[..taken]
        invariant inputQueue == old(inputQueue)[taken..]
        invariant taken <= k
        invariant taken < k ==> |currentBatch| < maxBatchSize && inputQueue != []
        decreases |inputQueue|
      {
        currentBatch := currentBatch + [inputQueue[0]];
        inputQueue := inputQueue[1..];
        taken := taken + 1;
      }
    }

    /** `_process_batch`: process every chunk of the batch in order, the i-th with `ios[i]`,
        pushing one record per chunk and counting it as processed or failed. */
    method ProcessBatch(ios: seq<ChunkIO>)
      requires |ios| == |currentBatch|
      modifies this`resultQueue, this`processedCount, this`failedCount
      ensures resultQueue == old(resultQueue) + BatchResults(currentBatch, ios)
      ensures processedCount == old(processedCount) + Successes(BatchResults(currentBatch, ios))
      ensures processedCount + failedCount == old(processedCount) + old(failedCount) + |currentBatch|
      ensures old(processedCount) <= processedCount <= old(processedCount) + |currentBatch|
    {
      var batch := currentBatch;
      var i := 0;
      while i < |batch|
        invariant 0 <= i <= |batch|
        invariant resultQueue == old(resultQueue) + BatchResults(batch[..i], ios[..i])
        invariant processedCount == old(processedCount) + Successes(BatchResults(batch[..i], ios[..i]))
        invariant processedCount + failedCount == old(processedCount) + old(failedCount) + i
      {
        var chunk := batch[i];
        BatchResultsStep(batch, ios, i);
        var o, _, _, _ := ProcessChunk(chunk, ios[i]);
        match o {
          case Processed(videoCid, metadataCid) =>
            resultQueue := resultQueue + [Success(videoCid, metadataCid, chunk.sequenceNumber)];
            processedCount := processedCount + 1;
          case Rejected(error) =>
            failedCount := failedCount + 1;
            resultQueue := resultQueue + [Failure(error, chunk.sequenceNumber)];
        }
        i := i + 1;
      }
      assert batch[..i] == batch && ios[..i] == ios;
      SuccessesAtMost(BatchResults(batch, ios));
    }

    /** One iteration of the processing loop.  Build a batch; if it is empty, sleep.
        Otherwise process it, then compute the average time per processed chunk: when no
        chunk has ever been processed the division raises, the handler counts one more
        failure, and the batch is NOT cleared, so the next iteration processes it again. */
    method ProcessLoopStep(ios: seq<ChunkIO>) returns (outcome: LoopOutcome)
      requires isRunning
      requires |ios| == |currentBatch| + Room(|currentBatch|, |inputQueue|)
      modifies this`currentBatch, this`inputQueue, this`resultQueue, this`processedCount, this`failedCount
      ensures var k := Room(|old(currentBatch)|, |old(inputQueue)|);
        var batch := old(currentBatch) + old(inputQueue)[..k];
        && inputQueue == old(inputQueue)[k..]
        && (batch == [] ==>
              outcome == NothingToDo && currentBatch == [] && resultQueue == old(resultQueue)
              && processedCount == old(processedCount) && failedCount == old(failedCount))
        && (batch != [] ==>
              && resultQueue == old(resultQueue) + BatchResults(batch, ios)
              && processedCount == old(processedCount) + Successes(BatchResults(batch, ios))
              && (processedCount == 0 ==>
                    outcome == StatsRaised && currentBatch == batch && failedCount == old(failedCount) + |batch| + 1)
              && (processedCount != 0 ==>
                    outcome == BatchCleared && currentBatch == []
                    && processedCount + failedCount == old(processedCount) + old(failedCount) + |batch|))
    {
      BuildBatch();
      if currentBatch == [] {
        return NothingToDo;
      }
      ProcessBatch(ios);
      if processedCount == 0 {
        failedCount := failedCount + 1;
        outcome := StatsRaised;
      } else {
        currentBatch := [];
        outcome := BatchCleared;
      }
    }

    /** `_process_remaining`: move the whole input queue into the batch, whatever its size,
        and process the batch if it is not empty.  The batch is not cleared afterwards. */
    method ProcessRemaining(ios: seq<ChunkIO>)
      requires |ios| == |currentBatch| + |inputQueue|
      modifies this`currentBatch, this`inputQueue, this`resultQueue, this`processedCount, this`failedCount
      ensures inputQueue == [] && currentBatch == old(currentBatch) + old(inputQueue)
      ensures resultQueue == old(resultQueue) + BatchResults(currentBatch, ios)
      ensures processedCount == old(processedCount) + Successes(BatchResults(currentBatch, ios))
      ensures processedCount + failedCount == old(processedCount) + old(failedCount) + |currentBatch|
    {
      while inputQueue != []
        invariant currentBatch + inputQueue == old(currentBatch) + old(inputQueue)
        invariant resultQueue == old(resultQueue)
        invariant processedCount == old(processedCount) && failedCount == old(failedCount)
        decreases |inputQueue|
      {
        currentBatch := currentBatch + [inputQueue[0]];
        inputQueue := inputQueue[1..];
      }
      if currentBatch != [] {
        ProcessBatch(ios);
      }
    }

    /** Stop: clear the running flag (the processing thread then ends) and process everything
        still queued. */
    method Stop(ios: seq<ChunkIO>)
      requires |ios| == |currentBatch| + |inputQueue|
      modifies this`isRunning, this`currentBatch, this`inputQueue, this`resultQueue, this`processedCount, this`failedCount
      ensures !isRunning && inputQueue == [] && currentBatch == old(currentBatch) + old(inputQueue)
      ensures resultQueue == old(resultQueue) + BatchResults(currentBatch, ios)
      ensures processedCount == old(processedCount) + Successes(BatchResults(currentBatch, ios))
      ensures processedCount + failedCount == old(processedCount) + old(failedCount) + |currentBatch|
    {
      isRunning := false;
      ProcessRemaining(ios);
    }
  }
}

=== FILE: common.dfy ===
/** Small value types shared by the recorder, the batch processor and the manager. */
module Common {

  /** Python's `Optional[T]`: `None` or a value. */
  datatype Option<+T> = None | Some(value: T)

  /** Raw bytes, as read from a saved video file. */
  type Bytes = seq<bv8>

  /** A content id returned by the content-addressed store; the empty string is "no id". */
  type Cid = string

  /** What a call into a collaborator did: it returned a value, or it raised an exception. */
  datatype Reply<+T> = Returns(value: T) | Raises(error: string)

  /** What a collaborator call with no result did: it returned, or it raised. */
  datatype Ack = Done | Fails(error: string)
}

=== FILE: dashcam_manager.dfy ===
/**
 * The session orchestrator: `DashcamManager`.
 *
 * The manager's collaborators (the ledger, the recorder and the batch processor) are test
 * doubles, as in the manager's tests: what each call answers is passed in as a parameter,
 * and every call that acts on a collaborator is appended to the log `calls`, so that the
 * order of calls can be stated.  The upload thread becomes the step method `UploadStep`.
 */
module DashcamManagement {
  import opened Common
  import opened VideoHandler
  import opened BatchProcessing

  /** What the manager sends to the ledger for one uploaded chunk. */
  datatype LedgerEntry = LedgerEntry(sequenceNumber: int, videoCid: Cid, metadataCid: Cid)

  /** A call the manager makes on a collaborator. */
  datatype Call =
    | StartVideoSession
    | RecorderStart
    | ProcessorStart
    | RecorderStop
    | ProcessorStop
    | EndVideoSession(sessionId: int)
    | RecorderCleanup
    | AddChunk(chunk: VideoChunk)
    | AddVideoChunk(session: Option<int>, entry: LedgerEntry)

  /** The record `get_status` returns, or the error record it returns instead. */
  datatype Status =
    | Status(isRecording: bool, sessionId: Option<int>, recorderStatus: RecorderStatus,
             processorStats: ProcessorStats, sessionActive: bool)
    | StatusError(error: string)

  /** How one iteration of the upload loop ended. */
  datatype UploadOutcome = NoChunk | AllForwarded | Swallowed

  /** The calls `start_recording` makes: open a ledger session, start the recorder and, if it
      started, the batch processor; on any failure, clean up. */
  function StartCalls(session: Reply<int>, recorderStarted: bool): (cs: seq<Call>)
    ensures |cs| >= 2 && cs[0] == StartVideoSession
    ensures RecorderStart in cs <==> session.Returns?
    ensures ProcessorStart in cs <==> session.Returns? && recorderStarted
    ensures ProcessorStart in cs ==> cs == [StartVideoSession, RecorderStart, ProcessorStart]
    ensures RecorderCleanup in cs <==> !(session.Returns? && recorderStarted)
    ensures RecorderCleanup in cs ==> cs[|cs| - 1] == RecorderCleanup
    ensures forall c :: c in cs ==> !c.EndVideoSession?
  {
    [StartVideoSession] +
    if session.Raises? then [RecorderCleanup]
    else [RecorderStart] + if !recorderStarted then [RecorderCleanup] else [ProcessorStart]
  }

  /** The calls `stop_recording` makes: stop the recorder, then the batch processor, then end
      the ledger session if there is one; a call that raises skips the rest; cleanup always
      comes last. */
  function StopCalls(sessionId: Option<int>, recorderStop: Ack, processorStop: Ack): (cs: seq<Call>)
    ensures |cs| >= 2 && cs[0] == RecorderStop && cs[|cs| - 1] == RecorderCleanup
    ensures ProcessorStop in cs <==> recorderStop.Done?
    ensures forall i, j :: 0 <= i < j < |cs| && cs[i].EndVideoSession? ==> !cs[j].EndVideoSession?
    ensures forall c :: c in cs && c.EndVideoSession? ==>
      sessionId == Some(c.sessionId) && recorderStop.Done? && processorStop.Done?
    ensures sessionId.Some? && recorderStop.Done? && processorStop.Done? ==> EndVideoSession(sessionId.value) in cs
  {
    var ended := if processorStop.Fails? || sessionId.None? then [] else [EndVideoSession(sessionId.value)];
    var stopped := if recorderStop.Fails? then [] else [ProcessorStop] + ended;
    [RecorderStop] + stopped + [RecorderCleanup]
  }

  /** The ledger entry for a success record. */
  function EntryOf(r: ResultRecord): LedgerEntry
    requires r.Success?
  {
    LedgerEntry(r.sequenceNumber, r.videoCid, r.metadataCid)
  }

  /** The `add_video_chunk` calls made for `results[i..]`, the j-th result answered by
      `acks[j]`: reading the content ids of a failure record raises, and so may the call
      itself; either ends the iteration. */
  function ForwardFrom(sessionId: Option<int>, results: seq<ResultRecord>, acks: seq<Ack>, i: nat): seq<Call>
    requires i <= |results| <= |acks|
    decreases |results| - i
  {
    if i == |results| || results[i].Failure? then []
    else
      var rest := if acks[i].Fails? then [] else ForwardFrom(sessionId, results, acks, i + 1);
      [AddVideoChunk(sessionId, EntryOf(results[i]))] + rest
  }

  /** Forwarding `results[i..]` raises: some result is a failure record, or a ledger call
      fails, before every result was forwarded. */
  predicate RaisesFrom(results: seq<ResultRecord>, acks: seq<Ack>, i: nat)
    requires i <= |results| <= |acks|
    decreases |results| - i
  {
    i < |results| && (results[i].Failure? || acks[i].Fails? || RaisesFrom(results, acks, i + 1))
  }

  /** The call for the j-th result carries the session id and that result's sequence
      number and content ids, and comes in the j-th place; no more calls are made than there
      are results. */
  lemma {:induction false} ForwardFromMatchesResults(sessionId: Option<int>, results: seq<ResultRecord>, acks: seq<Ack>, i: nat)
    requires i <= |results| <= |acks|
    ensures |ForwardFrom(sessionId, results, acks, i)| <= |results| - i
    ensures forall j :: i <= j < i + |ForwardFrom(sessionId, results, acks, i)| ==>
      results[j].Success? && ForwardFrom(sessionId, results, acks, i)[j - i] == AddVideoChunk(sessionId, EntryOf(results[j]))
    decreases |results| - i
  {
    if i < |results| && results[i].Success? && acks[i].Done? {
      ForwardFromMatchesResults(sessionId, results, acks, i + 1);
      var rest := ForwardFrom(sessionId, results, acks, i + 1);
      assert ForwardFrom(sessionId, results, acks, i) == [AddVideoChunk(sessionId, EntryOf(results[i]))] + rest;
      forall j | i + 1 <= j < i + |ForwardFrom(sessionId, results, acks, i)|
        ensures results[j].Success? && ForwardFrom(sessionId, results, acks, i)[j - i] == rest[j - (i + 1)]
      {
      }
    }
  }

  /** When nothing raises, every result is forwarded exactly once; when something raises,
      the forwarding stops at the first failure record or failing call. */
  lemma {:induction false} ForwardFromComplete(sessionId: Option<int>, results: seq<ResultRecord>, acks: seq<Ack>, i: nat)
    requires i <= |results| <= |acks|
    ensures !RaisesFrom(results, acks, i) <==> |ForwardFrom(sessionId, results, acks, i)| == |results| - i && (i < |results| ==> acks[|results| - 1].Done?)
    decreases |results| - i
  {
    if i < |results| {
      ForwardFromComplete(sessionId, results, acks, i + 1);
    }
  }

  class DashcamManager {
    var sessionId: Option<int>
    var isRecording: bool
    /** An upload thread has been created. */
    var uploadThread: bool
    /** Every call made on a collaborator, oldest first. */
    var calls: seq<Call>

    /** Recording implies an open session and a running upload thread. */
    ghost predicate Valid()
      reads this
    {
      isRecording ==> sessionId.Some? && uploadThread
    }

    constructor ()
      ensures Valid()
      ensures sessionId == None && !isRecording && !uploadThread && calls == []
    {
      sessionId, isRecording, uploadThread, calls := None, false, false, [];
    }

    /** Clean up the recorder, then forget the session.  `recorderCleanup` is how the
        recorder's cleanup answers; when it raises, the exception leaves before the flag and
        the session are cleared. */
    method Cleanup(recorderCleanup: Ack)
      modifies this`calls, this`isRecording, this`sessionId
      ensures calls == old(calls) + [RecorderCleanup]
      ensures recorderCleanup.Done? ==> !isRecording && sessionId == None
      ensures recorderCleanup.Fails? ==> isRecording == old(isRecording) && sessionId == old(sessionId)
    {
      calls := calls + [RecorderCleanup];
      if recorderCleanup.Fails? {
        return;
      }
      isRecording := false;
      sessionId := None;
    }

    /** Start a ledger session, then the recorder, then the batch processor, then the upload
        thread.  If the ledger raises or the recorder does not start, clean up and answer
        false; the ledger session already opened is not ended.  If that cleanup raises, its
        exception escapes (`Raises`). */
    method StartRecording(session: Reply<int>, recorderStarted: bool, recorderCleanup: Ack) returns (r: Reply<bool>)
      requires Valid()
      modifies this
      ensures Valid()
      ensures r == Returns(true) <==> session.Returns? && recorderStarted
      ensures r.Raises? <==> !(session.Returns? && recorderStarted) && recorderCleanup.Fails?
      ensures calls == old(calls) + StartCalls(session, recorderStarted)
      ensures r == Returns(true) ==> isRecording && sessionId == Some(session.value) && uploadThread
      ensures r == Returns(false) ==> !isRecording && sessionId == None && uploadThread == old(uploadThread)
      ensures r.Raises? ==>
        && isRecording == old(isRecording) && uploadThread == old(uploadThread)
        && sessionId == (if session.Returns? then Some(session.value) else old(sessionId))
    {
      calls := calls + [StartVideoSession];
      if session.Raises? {
        Cleanup(recorderCleanup);
        return if recorderCleanup.Fails? then Raises(recorderCleanup.error) else Returns(false);
      }
      sessionId := Some(session.value);
      calls := calls + [RecorderStart];
      if !recorderStarted {
        Cleanup(recorderCleanup);
        return if recorderCleanup.Fails? then Raises(recorderCleanup.error) else Returns(false);
      }
      calls := calls + [ProcessorStart];
      isRecording := true;
      uploadThread := true;
      r := Returns(true);
    }

    /** Stop the recorder, the batch processor and the ledger session, in that order; a call
        that raises skips the rest, and cleanup runs in every case.  Only an exception from
        that cleanup escapes (`raised`), and then the session is kept. */
    method StopRecording(recorderStop: Ack, processorStop: Ack, recorderCleanup: Ack) returns (raised: bool)
      requires Valid()
      modifies this
      ensures Valid()
      ensures raised <==> recorderCleanup.Fails?
      ensures !isRecording && uploadThread == old(uploadThread)
      ensures forall n: nat :: UploadLoopContinues(n) <==> n > 0
      ensures sessionId == (if raised then old(sessionId) else None)
      ensures calls == old(calls) + StopCalls(old(sessionId), recorderStop, processorStop)
    {
      isRecording := false;
      calls := calls + [RecorderStop];
      if recorderStop.Done? {
        calls := calls + [ProcessorStop];
        if processorStop.Done? && sessionId.Some? {
          calls := calls + [EndVideoSession(sessionId.value)];
        }
      }
      Cleanup(recorderCleanup);
      raised := recorderCleanup.Fails?;
    }

    /** One iteration of the upload loop.  `next` is what `get_next_chunk` gave, `recent`
        what the processor's results call gave and `acks` how the ledger answers each
        `add_video_chunk`.  Without a chunk the iteration ends; otherwise the chunk is handed
        to the processor and the results are forwarded to the ledger one by one.  Any
        exception ends the iteration and is swallowed. */
    method UploadStep(next: Reply<Option<VideoChunk>>, recent: Reply<seq<ResultRecord>>, acks: seq<Ack>)
      returns (outcome: UploadOutcome)
      requires recent.Returns? ==> |acks| >= |recent.value|
      modifies this`calls
      ensures isRecording == old(isRecording) && sessionId == old(sessionId)
      ensures forall n: nat :: UploadLoopContinues(n) == old(UploadLoopContinues(n))
      ensures next.Raises? ==> outcome == Swallowed && calls == old(calls)
      ensures next == Returns(None) ==> outcome == NoChunk && calls == old(calls)
      ensures next.Returns? && next.value.Some? && recent.Raises? ==>
        outcome == Swallowed && calls == old(calls) + [AddChunk(next.value.value)]
      ensures next.Returns? && next.value.Some? && recent.Returns? ==>
        && calls == old(calls) + [AddChunk(next.value.value)] + ForwardFrom(sessionId, recent.value, acks, 0)
        && (outcome == Swallowed <==> RaisesFrom(recent.value, acks, 0))
        && (outcome != Swallowed ==> outcome == AllForwarded)
    {
      if next.Raises? {
        return Swallowed;
      }
      if next.value.None? {
        return NoChunk;
      }
      calls := calls + [AddChunk(next.value.value)];
      if recent.Raises? {
        return Swallowed;
      }
      var raised := ForwardResults(recent.value, acks);
      outcome := if raised then Swallowed else AllForwarded;
    }

    /** Forward the processor's results to the ledger one by one, in order; a failure record
        or a raising ledger call stops the loop, and `raised` says whether one did. */
    method ForwardResults(results: seq<ResultRecord>, acks: seq<Ack>) returns (raised: bool)
      requires |acks| >= |results|
      modifies this`calls
      ensures calls == old(calls) + ForwardFrom(sessionId, results, acks, 0)
      ensures raised == RaisesFrom(results, acks, 0)
    {
      var sid, log := sessionId, calls;
      var i := 0;
      while i < |results|
        invariant 0 <= i <= |results|
        invariant log + ForwardFrom(sid, results, acks, i) == calls + ForwardFrom(sid, results, acks, 0)
        invariant RaisesFrom(results, acks, 0) == RaisesFrom(results, acks, i)
      {
        if results[i].Failure? {
          calls := log;
          return true;
        }
        log := log + [AddVideoChunk(sid, EntryOf(results[i]))];
        if acks[i].Fails? {
          calls := log;
          return true;
        }
        i := i + 1;
      }
      calls := log;
      return false;
    }

    /** The condition of the upload loop, given how many chunks the recorder's queue holds:
        while recording the loop always goes on; once recording has stopped it goes on
        exactly until the recorder's queue is empty. */
    predicate UploadLoopContinues(recorderQueueSize: nat)
      reads this
    {
      isRecording || recorderQueueSize > 0
    }

    /** The status record, from the recorder's status, the processor's statistics and the
        ledger's answer on whether the session is active (asked only when there is a session);
        any of them raising yields the error record. */
    function GetStatus(recorderStatus: Reply<RecorderStatus>, processorStats: Reply<ProcessorStats>, sessionActive: Reply<bool>)
      : (s: Status)
      reads this
      ensures s.Status? ==> s.isRecording == isRecording && s.sessionId == sessionId
      ensures s.Status? ==>
        && recorderStatus.Returns? && processorStats.Returns?
        && s.recorderStatus == recorderStatus.value && s.processorStats == processorStats.value
      ensures recorderStatus.Raises? ==> s == StatusError(recorderStatus.error)
      ensures recorderStatus.Returns? && processorStats.Raises? ==> s == StatusError(processorStats.error)
      ensures recorderStatus.Returns? && processorStats.Returns? && sessionId.Some? && sessionActive.Raises? ==>
        s == StatusError(sessionActive.error)
      ensures s.Status? ==> (s.sessionActive <==> sessionId.Some? && sessionActive == Returns(true))
      ensures s.StatusError? <==>
        recorderStatus.Raises? || processorStats.Raises? || (sessionId.Some? && sessionActive.Raises?)
    {
      if recorderStatus.Raises? then StatusError(recorderStatus.error)
      else if processorStats.Raises? then StatusError(processorStats.error)
      else if sessionId.Some? && sessionActive.Raises? then StatusError(sessionActive.error)
      else Status(isRecording, sessionId, recorderStatus.value, processorStats.value,
                  sessionId.Some? && sessionActive.value)
    }
  }
}

=== FILE: video_handler.dfy ===
/**
 * The segment producer: `VideoChunk` and `DashcamRecorder`.
 *
 * The capture device, the overlay drawing and the file writer are not modelled; what a
 * frame read or a chunk save produced is passed in.  The recording thread becomes the
 * step methods `RecordStep` (one iteration of the recording loop) and `CompletePut`
 * (the iteration's `put` returning after it waited on a full queue); the clock is the
 * integer parameter `now`.
 */
module VideoHandler {
  import opened Common

  /** `VideoChunk.duration`: always 15 seconds, whatever the recorder's chunk duration. */
  const ChunkSeconds := 15
  /** Capacity of the recorder's chunk queue. */
  const QueueCapacity := 30
  /** Chunk files older than this many seconds are removed by the retention sweep. */
  const RetentionSeconds := 300

  /** `datetime.fromtimestamp(start_time)`, rendered in ISO format in the metadata. */
  datatype Timestamp = LocalTime(epochSeconds: int)

  /** The record `VideoChunk.get_metadata` returns. */
  datatype ChunkMetadata = ChunkMetadata(startTime: int, sequenceNumber: int, duration: int, timestamp: Timestamp)

  /** One finished segment: when it started, the bytes of its file and its sequence number. */
  datatype VideoChunk = VideoChunk(startTime: int, data: Bytes, sequenceNumber: int)

  /** The metadata of a chunk: its start time and sequence number, the fixed duration, and
      a timestamp derived from the start time. */
  function GetMetadata(chunk: VideoChunk): (m: ChunkMetadata)
    ensures m.startTime == chunk.startTime && m.sequenceNumber == chunk.sequenceNumber
    ensures m.duration == ChunkSeconds
    ensures m.timestamp.epochSeconds == m.startTime
  {
    ChunkMetadata(chunk.startTime, chunk.sequenceNumber, ChunkSeconds, LocalTime(chunk.startTime))
  }

  type Frame = Bytes

  /** A captured frame with the wall-clock overlay drawn on it at time `shownAt`. */
  datatype StampedFrame = StampedFrame(frame: Frame, shownAt: int)

  /** What `capture.read()` gave: no frame, a frame, or an exception. */
  datatype FrameRead = Missed | Captured(frame: Frame) | ReadFault(error: string)

  /** What saving the buffered frames gave: the bytes of the written file, or no file. */
  datatype SaveResult = Saved(data: Bytes) | NotSaved

  /** The recording thread: not running, looping, waiting inside `put` on a full queue with
      the chunk it is enqueueing, or ended by an exception while `is_recording` stayed set. */
  datatype Producer = Idle | Running | BlockedOnPut(chunk: VideoChunk) | Crashed

  /** The record `DashcamRecorder.get_status` returns. */
  datatype RecorderStatus = RecorderStatus(
    isRecording: bool, currentChunk: int, queueSize: nat,
    resolution: (int, int), fps: int, chunkDuration: int)

  class DashcamRecorder {
    const chunkDuration: int
    const resolution: (int, int)
    const fps: int

    var isRecording: bool
    var currentChunk: int
    var chunkQueue: seq<VideoChunk>
    /** The capture device is held (opened and not yet released). */
    var captureOpen: bool
    var producer: Producer
    /** The recording thread's frame buffer and the start time of the chunk being built. */
    var frames: seq<StampedFrame>
    var chunkStartTime: int
    /** Every chunk enqueued since the last successful start, in order. */
    ghost var enqueued: seq<VideoChunk>

    ghost predicate Valid()
      reads this
    {
      && |chunkQueue| <= QueueCapacity
      && currentChunk == |enqueued|
      && (forall i :: 0 <= i < |enqueued| ==> enqueued[i].sequenceNumber == i)
      && (isRecording <==> !producer.Idle?)
      && (producer.BlockedOnPut? ==> producer.chunk.sequenceNumber == currentChunk)
    }

    constructor (chunkDuration: int, resolution: (int, int), fps: int)
      ensures Valid()
      ensures this.chunkDuration == chunkDuration && this.resolution == resolution && this.fps == fps
      ensures !isRecording && currentChunk == 0 && chunkQueue == [] && producer == Idle && !captureOpen
    {
      this.chunkDuration := chunkDuration;
      this.resolution := resolution;
      this.fps := fps;
      isRecording := false;
      currentChunk := 0;
      chunkQueue := [];
      captureOpen := false;
      producer := Idle;
      frames := [];
      chunkStartTime := 0;
      enqueued := [];
    }

    /** Start recording.  Refused while already recording; fails, releasing the capture,
        when the device does not open; otherwise restarts numbering at 0. */
    method StartRecording(deviceOpens: bool, now: int) returns (ok: bool)
      requires Valid()
      modifies this
      ensures Valid()
      ensures ok <==> !old(isRecording) && deviceOpens
      ensures old(isRecording) ==> unchanged(this)
      ensures !old(isRecording) && !deviceOpens ==>
        && !isRecording && !captureOpen && producer == old(producer)
        && currentChunk == old(currentChunk) && enqueued == old(enqueued) && chunkQueue == old(chunkQueue)
        && frames == old(frames) && chunkStartTime == old(chunkStartTime)
      ensures ok ==>
        && isRecording && captureOpen && producer == Running
        && currentChunk == 0 && enqueued == [] && chunkQueue == old(chunkQueue)
        && frames == [] && chunkStartTime == now
    {
      if isRecording {
        return false;
      }
      captureOpen := deviceOpens;
      if !deviceOpens {
        Cleanup();
        return false;
      }
      isRecording := true;
      currentChunk := 0;
      enqueued := [];
      producer := Running;
      frames := [];
      chunkStartTime := now;
      ok := true;
    }

    /** Stop recording: clear the flag, let the recording thread finish (its frame buffer is
        dropped) and release the capture.  The thread must not be waiting inside `put`. */
    method StopRecording()
      requires Valid() && !producer.BlockedOnPut?
      modifies this
      ensures Valid()
      ensures !isRecording && producer == Idle && !captureOpen && frames == []
      ensures currentChunk == old(currentChunk) && enqueued == old(enqueued) && chunkQueue == old(chunkQueue)
      ensures chunkStartTime == old(chunkStartTime)
    {
      isRecording := false;
      producer := Idle;
      frames := [];
      Cleanup();
    }

    /** Release the capture device. */
    method Cleanup()
      modifies this`captureOpen
      ensures !captureOpen
    {
      captureOpen := false;
    }

    /** The chunk the recording loop enqueues has been accepted by the queue: count it and
        start buffering the next chunk. */
    method Enqueued(chunk: VideoChunk, now: int)
      requires Valid() && isRecording && |chunkQueue| < QueueCapacity
      requires chunk.sequenceNumber == currentChunk
      modifies this`chunkQueue, this`currentChunk, this`enqueued, this`frames, this`chunkStartTime, this`producer
      ensures Valid() && producer == Running
      ensures chunkQueue == old(chunkQueue) + [chunk] && enqueued == old(enqueued) + [chunk]
      ensures currentChunk == old(currentChunk) + 1
      ensures frames == [] && chunkStartTime == now
    {
      chunkQueue := chunkQueue + [chunk];
      enqueued := enqueued + [chunk];
      currentChunk := currentChunk + 1;
      producer := Running;
      frames := [];
      chunkStartTime := now;
    }

    /** One iteration of the recording loop, at clock time `now`.  A missed frame changes
        nothing; a read exception ends the loop.  A captured frame is buffered; once the
        elapsed time reaches the chunk duration the buffer is cut: a saved chunk gets the
        sequence number `currentChunk` and is enqueued (or, on a full queue, the thread
        waits in `put` holding it); an unsaved one is dropped without using a number. */
    method RecordStep(read: FrameRead, now: int, save: SaveResult)
      requires Valid() && producer == Running
      modifies this
      ensures Valid()
      ensures isRecording == old(isRecording) && captureOpen == old(captureOpen)
      ensures read.Missed? ==> unchanged(this)
      ensures read.ReadFault? ==>
        && producer == Crashed && frames == old(frames) && chunkStartTime == old(chunkStartTime)
        && chunkQueue == old(chunkQueue) && currentChunk == old(currentChunk) && enqueued == old(enqueued)
      ensures read.Captured? && now - old(chunkStartTime) < chunkDuration ==>
        && producer == Running && frames == old(frames) + [StampedFrame(read.frame, now)]
        && chunkStartTime == old(chunkStartTime)
        && chunkQueue == old(chunkQueue) && currentChunk == old(currentChunk) && enqueued == old(enqueued)
      ensures read.Captured? && now - old(chunkStartTime) >= chunkDuration && save.NotSaved? ==>
        && producer == Running && frames == [] && chunkStartTime == now
        && chunkQueue == old(chunkQueue) && currentChunk == old(currentChunk) && enqueued == old(enqueued)
      ensures read.Captured? && now - old(chunkStartTime) >= chunkDuration && save.Saved? ==>
        var chunk := VideoChunk(old(chunkStartTime), save.data, old(currentChunk));
        if |old(chunkQueue)| < QueueCapacity then
          && producer == Running && frames == [] && chunkStartTime == now
          && chunkQueue == old(chunkQueue) + [chunk] && enqueued == old(enqueued) + [chunk]
          && currentChunk == old(currentChunk) + 1
        else
          && producer == BlockedOnPut(chunk) && frames == old(frames) + [StampedFrame(read.frame, now)]
          && chunkStartTime == old(chunkStartTime)
          && chunkQueue == old(chunkQueue) && currentChunk == old(currentChunk) && enqueued == old(enqueued)
    {
      match read
      case Missed =>
      case ReadFault(_) =>
        producer := Crashed;
      case Captured(frame) =>
        frames := frames + [StampedFrame(frame, now)];
        var elapsed := now - chunkStartTime;
        if elapsed >= chunkDuration {
          match save
          case NotSaved =>
            frames := [];
            chunkStartTime := now;
          case Saved(data) =>
            var chunk := VideoChunk(chunkStartTime, data, currentChunk);
            if |chunkQueue| < QueueCapacity {
              Enqueued(chunk, now);
            } else {
              producer := BlockedOnPut(chunk);
            }
        }
    }

    /** The recording thread, waiting in `put` on a full queue, tries again at time `now`:
        it completes exactly when the queue has room, and nothing is ever discarded. */
    method CompletePut(now: int) returns (done: bool)
      requires Valid() && producer.BlockedOnPut?
      modifies this
      ensures Valid()
      ensures done <==> |old(chunkQueue)| < QueueCapacity
      ensures !done ==> unchanged(this)
      ensures done ==>
        && producer == Running && frames == [] && chunkStartTime == now
        && chunkQueue == old(chunkQueue) + [old(producer).chunk]
        && enqueued == old(enqueued) + [old(producer).chunk]
        && currentChunk == old(currentChunk) + 1
        && isRecording == old(isRecording) && captureOpen == old(captureOpen)
    {
      done := |chunkQueue| < QueueCapacity;
      if done {
        Enqueued(producer.chunk, now);
      }
    }

    /** Non-blocking poll: `None` on an empty queue, otherwise the oldest chunk, removed. */
    method GetNextChunk() returns (c: Option<VideoChunk>)
      requires Valid()
      modifies this`chunkQueue
      ensures Valid()
      ensures old(chunkQueue) == [] ==> c == None && chunkQueue == []
      ensures old(chunkQueue) != [] ==> c == Some(old(chunkQueue)[0]) && chunkQueue == old(chunkQueue)[1..]
    {
      if chunkQueue == [] {
        c := None;
      } else {
        c := Some(chunkQueue[0]);
        chunkQueue := chunkQueue[1..];
      }
    }

    /** The status record; its queue size never exceeds the queue's capacity. */
    function GetStatus(): (s: RecorderStatus)
      reads this
      requires Valid()
      ensures s.queueSize == |chunkQueue| && s.queueSize <= QueueCapacity
      ensures s.isRecording == isRecording && s.currentChunk == |enqueued|
      ensures s.resolution == resolution && s.fps == fps && s.chunkDuration == chunkDuration
    {
      RecorderStatus(isRecording, currentChunk, |chunkQueue|, resolution, fps, chunkDuration)
    }
  }

  /** The sequence numbers of a run of chunks, in order. */
  function SequenceNumbers(chunks: seq<VideoChunk>): seq<int>
  {
    seq(|chunks|, i requires 0 <= i < |chunks| => chunks[i].sequenceNumber)
  }

  /** The numbers 0, 1, ..., n - 1. */
  function Count(n: nat): seq<int>
  {
    seq(n, i => i)
  }

  /** The chunks enqueued since the last start are numbered 0, 1, 2, ... with no gap and no
      repetition, and their number is `currentChunk`. */
  lemma EnqueuedNumbering(r: DashcamRecorder)
    requires r.Valid()
    ensures r.currentChunk >= 0 && SequenceNumbers(r.enqueued) == Count(r.currentChunk)
    ensures forall i, j :: 0 <= i < j < |r.enqueued| ==> r.enqueued[i].sequenceNumber != r.enqueued[j].sequenceNumber
  {
  }

  // ---------------------------------------------------------------------------------
  // Retention sweep

  /** A file on disk in the recorder's temporary directory, with its modification time. */
  datatype ChunkFile = ChunkFile(name: string, mtime: int)

  /** The file name matches the pattern `chunk_*.mp4`. */
  predicate MatchesChunkGlob(name: string)
  {
    |name| >= 10 && name[..6] == "chunk_" && name[|name| - 4..] == ".mp4"
  }

  /** The sweep at time `now` deletes this file: it is a chunk file strictly older than the
      retention window. */
  predicate Expired(file: ChunkFile, now: int)
  {
    MatchesChunkGlob(file.name) && now - file.mtime > RetentionSeconds
  }

  /** The files, in directory order, whose expiry at `now` is `expired`. */
  function FilesWhere(files: seq<ChunkFile>, now: int, expired: bool): seq<ChunkFile>
  {
    if files == [] then []
    else
      var last := files[|files| - 1];
      FilesWhere(files[..|files| - 1], now, expired) + (if Expired(last, now) == expired then [last] else [])
  }

  lemma {:induction false} FilesWhereExactly(files: seq<ChunkFile>, now: int, expired: bool)
    ensures forall f :: f in FilesWhere(files, now, expired) <==> f in files && Expired(f, now) == expired
  {
    if files != [] {
      var init := files[..|files| - 1];
      FilesWhereExactly(init, now, expired);
      assert files == init + [files[|files| - 1]];
    }
  }

  lemma {:induction false} FilesWhereSizes(files: seq<ChunkFile>, now: int)
    ensures |FilesWhere(files, now, false)| + |FilesWhere(files, now, true)| == |files|
  {
    if files != [] {
      FilesWhereSizes(files[..|files| - 1], now);
    }
  }

  /** The sweep visits a listed file: the file system call on it raises, ending the sweep. */
  predicate FaultsAt(files: seq<ChunkFile>, fault: Option<nat>, i: nat)
    requires i < |files|
  {
    fault == Some(i) && MatchesChunkGlob(files[i].name)
  }

  /** One retention sweep over the directory listing `files` at time `now`.  `fault`, when
      present, is the position of the chunk file whose `stat` or `unlink` raises; the one
      handler around the loop then ends the sweep.  `swept` is how many listed files the
      sweep got through: before it, exactly the expired chunk files are deleted; from it on,
      every file is kept. */
  method CleanupOldChunks(files: seq<ChunkFile>, now: int, fault: Option<nat>)
    returns (kept: seq<ChunkFile>, deleted: seq<ChunkFile>, swept: nat)
    ensures swept <= |files|
    ensures swept < |files| <==> fault.Some? && fault.value < |files| && FaultsAt(files, fault, fault.value)
    ensures swept < |files| ==> swept == fault.value
    ensures kept == FilesWhere(files[..swept], now, false) + files[swept..]
    ensures deleted == FilesWhere(files[..swept], now, true)
    ensures forall f :: f in deleted <==> f in files[..swept] && Expired(f, now)
    ensures forall f :: f in kept <==> (f in files[..swept] && !Expired(f, now)) || f in files[swept..]
    ensures |kept| + |deleted| == |files|
  {
    kept, deleted := [], [];
    var i := 0;
    while i < |files| && !FaultsAt(files, fault, i)
      invariant 0 <= i <= |files|
      invariant forall j :: 0 <= j < i ==> !FaultsAt(files, fault, j)
      invariant kept == FilesWhere(files[..i], now, false)
      invariant deleted == FilesWhere(files[..i], now, true)
    {
      assert files[..i + 1][..i] == files[..i];
      if Expired(files[i], now) {
        deleted := deleted + [files[i]];
      } else {
        kept := kept + [files[i]];
      }
      i := i + 1;
    }
    swept := i;
    kept := kept + files[swept..];
    assert files == files[..swept] + files[swept..];
    FilesWhereExactly(files[..swept], now, false);
    FilesWhereExactly(files[..swept], now, true);
    FilesWhereSizes(files[..swept], now);
  }
}
